=== FILE: README.md ===
# Image preprocessing core, modelled in Dafny

This project models the `transform` routine of `src/preprocess_data.py`.
`transform` builds a fixed-size training set of images. It finds the image files
under an input directory, samples at most `maximg` of them with a seeded shuffle,
and randomly crops each one, resizes it to 224×224 and re-compresses it as JPEG.
It then writes one metadata row per image that did not fail. The model keeps every
integer, string and list decision the routine makes:

- **Discovery** (`discovery.dfy`, `ordering.dfy`, `ascii_text.dfy`). `check_img` is a case-insensitive suffix test against its allow-list. The raw glob hits become `sorted(list(set(hits)))`, and Python's string order is modelled as code-point lexicographic order.
- **Selection** (`selection.dfy`). The `maximg` rule. The seeded shuffle is a rearrangement the caller supplies, and `list_src[:maximg]` follows Python's slice rules, negative stops included.
- **Geometry** (`geometry.dfy`). `cropmax`, `cropmin`, the too-small branch, the crop square, the resampling filter and the JPEG quality. Each `randint(a, b)` is a caller-supplied value in `[a, b]`.
- **Naming** (`naming.dfy`, `paths.dfy`). `f"img_{index:03d}_{base_name}"`, the forced `.jpg` suffix, and POSIX `os.path.basename` / `os.path.join`.
- **Pipeline** (`pipeline.dfy`). `process_single_image` and the sequential meaning of the parallel map over `enumerate(list_src)`. It also covers the `None` filter and `transform` end to end.

Randomness. Images are processed on threads that share one `Random`, so which
values an image draws depends on scheduling. Each image's `x1` and `y1` ranges
depend only on that image's own `cropsize`. So under every schedule, each image
gets draws inside its own ranges. The model assumes only that: the draws are a
function from selection index to `Draws`, constrained by `DrawsInRange`.

Discovery lists differ. `check_img` (line 30) allows `.png .jpg .jpeg .tif .tiff .bmp .gif .webp`
in any case. The glob patterns that actually find the files (lines 56-60) cover only
`jpg jpeg png webp bmp`. On POSIX, where glob matching is case-sensitive, they find
only all-lower or all-upper spellings. On Windows, `glob` lower-cases both pattern and
name before matching, so any spelling is found. `check_img` is
never called. The model keeps both lists and proves that every glob hit passes
`check_img` but not conversely.

A negative `maximg` is not rejected. Every count is greater than it, so the list is
shuffled and `list_src[:maximg]` drops `-maximg` images from the end. The selection
therefore has `min(maximg, total_found)` images only when `maximg >= 0`.

## Model

| member | source | states |
|---|---|---|
| `Discovery.CheckImg` | src/preprocess_data.py:29-30 | the name passes exactly when its lower-cased form ends with one of the eight allowed extensions |
| `Discovery.CheckImgIgnoresCase` | src/preprocess_data.py:29-30 | `check_img` gives the same answer for a name and any ASCII case variant of it |
| `AsciiText.LowerOfCaseVariant` | src/preprocess_data.py:30 | two names that differ only in the case of ASCII letters lower-case to the same string |
| `Discovery.GlobHitPassesCheckImg` | src/preprocess_data.py:56-60 | on POSIX, a name ending in the lower- or upper-case spelling of a globbed extension passes `check_img` |
| `Discovery.CheckImgWiderThanGlob` | src/preprocess_data.py:56-60 | `a.gif` passes `check_img` although no glob pattern of `transform` finds it (on any platform, since `.gif` is not globbed) |
| `Discovery.SortedUnique` | src/preprocess_data.py:62 | the discovered list is strictly increasing (sorted, no duplicates), holds exactly the paths of the raw hits and is no longer than them |
| `Ordering.StrictlySortedUnique` | src/preprocess_data.py:62 | two strictly increasing lists with the same elements are equal, so the sorted set is unique |
| `Discovery.DiscoveryIgnoresHitOrder` | src/preprocess_data.py:58-62 | the discovered list depends only on which paths were hit, not on hit order or repetitions |
| `Discovery.DiscoveryIdempotent` | src/preprocess_data.py:62 | discovering an already discovered list changes nothing |
| `Selection.PrefixSlice` | src/preprocess_data.py:72 | `s[:stop]` is a prefix of `s` whose length follows Python's rules for negative and too-large stops |
| `Selection.SelectImages` | src/preprocess_data.py:68-74 | with no `maximg`, or no more images than `maximg`, the list is kept unchanged, order included; otherwise the result is a prefix of the shuffled list; every selected path was discovered |
| `Selection.SelectionSize` | src/preprocess_data.py:68-74 | for a non-negative `maximg` the selection has `min(maximg, total_found)` images |
| `Selection.NegativeMaximgDropsFromEnd` | src/preprocess_data.py:69-72 | for a negative `maximg` the selection has `max(0, total_found + maximg)` images |
| `Selection.RearrangementKeepsDistinct` | src/preprocess_data.py:71 | shuffling a duplicate-free list leaves it duplicate-free |
| `Selection.SelectionDistinct` | src/preprocess_data.py:62-72 | sampling a duplicate-free discovered list never selects a path twice |
| `Geometry.CropMax` | src/preprocess_data.py:91 | `cropmax` is at most the width, the height and 2048, and equals one of them |
| `Geometry.CropMin` | src/preprocess_data.py:98 | in the crop branch `160 <= cropmin <= cropmax`, `cropmin` is at least `cropmax * 5 // 8` and equals it unless that is below 160 |
| `Geometry.PlanImage` | src/preprocess_data.py:91-112 | the too-small branch is taken exactly when `min(w, h) < 160`; otherwise `160 <= cropsize <= cropmax`, the crop square lies inside the image, `65 <= qf <= 100`, the high filter is used exactly when `cropsize > 224`, and the drawn values are used as drawn |
| `Geometry.DrawRangesNonEmpty` | src/preprocess_data.py:91-103 | every `randint` range of the crop branch is non-empty, whatever crop size was drawn |
| `Geometry.SomeDrawsFit` | src/preprocess_data.py:98-112 | for every image size some draws satisfy all range constraints |
| `Geometry.DirectIgnoresDraws` | src/preprocess_data.py:92-96 | in the too-small branch the outcome does not depend on any random draw |
| `Geometry.ResampleChoice` | src/preprocess_data.py:94-108 | the final resize uses the high filter exactly when the image is too small to crop or the crop size exceeds 224 |
| `Geometry.Recorded` | src/preprocess_data.py:91-115 | the recorded crop size, origin and quality are 0/0/0/90 exactly when `min(w, h) < 160`, and otherwise the values drawn; the recorded square lies inside the image and the quality is in `[65, 100]` |
| `Paths.Basename` | src/preprocess_data.py:78 | the basename has no `/`, is a suffix of the path, and is preceded by a `/` when it is not the whole path |
| `Paths.Join` | src/preprocess_data.py:83 | an absolute name replaces the directory; otherwise the joined path is the directory, then a single `/` unless the directory is empty or already ends in `/`, then the name |
| `Paths.BasenameOfJoin` | src/preprocess_data.py:78-83 | the basename of a directory joined with a slash-free name is that name |
| `Naming.Decimal` | src/preprocess_data.py:79 | the decimal spelling is non-empty digits with no leading zero, and its length grows with the number |
| `Naming.DecimalRoundTrip` | src/preprocess_data.py:79 | reading the decimal spelling of `n` gives `n` |
| `Naming.ZeroPad` | src/preprocess_data.py:79 | zero-padding yields `max(width, digits)` digits whose value is the number |
| `Naming.Pad3` | src/preprocess_data.py:79 | `{index:03d}` has `max(3, len(str(index)))` digits (exactly three below 1000, no extra zeros above) and reads back as the index |
| `Naming.Stem` | src/preprocess_data.py:79 | `f"img_{index:03d}_{base_name}"` is `img_`, the padded index, `_` and the basename; the run of digits after `img_` is exactly the padded index, and reading it gives the index back |
| `Naming.OutputFilename` | src/preprocess_data.py:79-81 | the name starts with `img_`, the padded index, `_` and the basename; it ends with `.jpg` ignoring case; `.jpg` is appended exactly when the composed name does not already end that way |
| `Naming.OutputFilenameInjective` | src/preprocess_data.py:77-81 | two different indices never give the same file name, whatever the basenames |
| `Naming.OutputFilenameHasNoSeparator` | src/preprocess_data.py:78-83 | the file name contains no `/`, so the output lands directly in the output directory |
| `Pipeline.ProcessSingleImage` | src/preprocess_data.py:76-118 | the result is absent exactly when opening or a later Pillow step fails; a row records its own source, the file name derived from its index, a destination that is `os.path.join(output_dir, filename)` and ends in `.jpg`, and crop fields satisfying the geometry facts (0/0/0/90 exactly for small images; otherwise exactly the values drawn) |
| `Pipeline.Destination` | src/preprocess_data.py:78-83 | the path a worker saves to lies under the output directory, ends in `.jpg`, and its last component is the output file name of its index and source |
| `Pipeline.ProcessAll` | src/preprocess_data.py:121-123 | one result per selected image, in selection order, each the result of that image under its own index; every worker, failed or not, has its own destination path, so the parallel workers never write to the same path; in particular no two present rows share `dst` |
| `Pipeline.WorkersHaveDistinctDestinations` | src/preprocess_data.py:121-123 | the destination paths of all workers of a run are pairwise different |
| `Pipeline.DistinctIndicesDistinctDestinations` | src/preprocess_data.py:77-83 | two images processed under different indices have different destination paths, whatever their sources and whether or not their processing fails |
| `Pipeline.DropNone` | src/preprocess_data.py:126 | the kept values are exactly the present results, in their original order |
| `Pipeline.CollectMetadata` | src/preprocess_data.py:121-126 | rows are at most the selection length; failures are dropped; survivors keep selection order; each row is the one its own index produced; file names are pairwise distinct |
| `Pipeline.Transform` | src/preprocess_data.py:32-126 | the selection is the `maximg` sample of the discovered list: duplicate-free, drawn from the hits, the whole discovered list when there is no `maximg` or no more images than it, otherwise a prefix of the shuffle, with `min(maximg, found)` images for a non-negative `maximg`; the rows are exactly the results of the selected images that did not fail, in selection order, each from its own index, with distinct file names |

## Left out

- File system effects: the `rmtree` of the output directory, the swallowed `OSError` and `makedirs` (lines 40-47). These are I/O.
- Globbing (lines 53-60): the hits are an input sequence. Which files `glob` returns for `**` with `recursive=True`, including its skipping of hidden names, is file-system behaviour. `Discovery.MatchesGlobExtension` describes only the extension part of the patterns.
- Pillow work: decoding, RGB conversion, crop, resize and JPEG encoding. Only the integers passed to them are modelled, and the 224×224 output is assumed, not proven.
- The seeded `Random`, `shuffle` and `randint`. The shuffle is a caller-supplied rearrangement, and each draw is a caller-supplied value in its inclusive range. Seed reproducibility is not modelled.
- The joblib thread pool and the shared generator it races on (lines 121-123). The model is the sequential, order-preserving map that joblib's result list equals.
- The pandas table, the CSV file, the tqdm bar and the printed messages (lines 37-38, 65, 70, 74, 117, 129-132).
- The `__main__` block with its fixed Windows paths (lines 134-158), and all of `src/download_data.py`, a wrapper over the Kaggle client.
- Discovery.CheckImg: lowers only ASCII letters, where `str.lower()` lowers all of Unicode. The answers still agree. The one non-ASCII character that lowers to letters of an allowed suffix is U+0130, which becomes `i` followed by U+0307. That `i` is always followed by U+0307, so it cannot complete `.tif`, `.tiff` or `.gif`.
- Naming.OutputFilename: tests for the `.jpg` ending with ASCII-only lowering, where line 80 uses `str.lower()`. The answers agree: the only non-ASCII characters that lower to ASCII letters are U+0130 (to `i` and U+0307) and the Kelvin sign U+212A (to `k`), and `.jpg` contains neither letter.
- Discovery.MatchesGlobExtension: describes POSIX glob matching, which is case-sensitive. On Windows `glob` lower-cases pattern and name (`os.path.normcase`), so every spelling of the five extensions is found there.
- File names that Python holds with lone surrogate code points (its surrogateescape form of undecodable bytes) cannot be represented. Dafny's `char` excludes surrogates.
- Paths.Basename: follows POSIX `os.path`, which splits only on `/`. On Windows `os.path.basename` also splits on `\`.
- Paths.Join: follows POSIX `os.path.join` for two components, not the Windows drive and separator rules.
- Pipeline.ProcessSingleImage: all failures after decoding are one flag. The model does not say which Pillow step raised. With per-index draws this makes no difference to any recorded value.

=== FILE: ascii_text.dfy ===
/**
 Character-level string helpers: ASCII case mapping and suffix tests.
 The preprocessing code only ever compares file names against ASCII
 suffixes, so lowering the ASCII letters is all of `str.lower()` that
 those comparisons can observe.
 */
module AsciiText {

  predicate IsUpper(c: char)
  {
    'A' <= c <= 'Z'
  }

  predicate IsLower(c: char)
  {
    'a' <= c <= 'z'
  }

  function LowerChar(c: char): (r: char)
    ensures !IsUpper(r)
    ensures IsUpper(c) ==> r as int == c as int + 32
    ensures !IsUpper(c) ==> r == c
  {
    if IsUpper(c) then (c as int + 32) as char else c
  }

  function UpperChar(c: char): (r: char)
    ensures !IsLower(r)
    ensures IsLower(c) ==> r as int == c as int - 32
    ensures !IsLower(c) ==> r == c
  {
    if IsLower(c) then (c as int - 32) as char else c
  }

  /** `s.lower()`, restricted to the ASCII letters. */
  function Lower(s: string): (r: string)
    ensures |r| == |s|
    ensures forall i :: 0 <= i < |s| ==> r[i] == LowerChar(s[i])
  {
    seq(|s|, i requires 0 <= i < |s| => LowerChar(s[i]))
  }

  /** `s.upper()`, restricted to the ASCII letters. */
  function Upper(s: string): (r: string)
    ensures |r| == |s|
    ensures forall i :: 0 <= i < |s| ==> r[i] == UpperChar(s[i])
  {
    seq(|s|, i requires 0 <= i < |s| => UpperChar(s[i]))
  }

  predicate HasNoUpper(s: string)
  {
    forall i :: 0 <= i < |s| ==> !IsUpper(s[i])
  }

  /** `s.endswith(suffix)` */
  predicate EndsWith(s: string, suffix: string)
  {
    |suffix| <= |s| && s[|s| - |suffix|..] == suffix
  }

  /** `s.lower().endswith(suffix)` for a suffix written in lower case. */
  predicate EndsWithIgnoringCase(s: string, suffix: string)
  {
    EndsWith(Lower(s), suffix)
  }

  /** Two characters that are equal, or the same ASCII letter in different cases. */
  predicate SameLetterIgnoringCase(a: char, b: char)
  {
    || a == b
    || (IsUpper(a) && b as int == a as int + 32)
    || (IsUpper(b) && a as int == b as int + 32)
  }

  /** `t` is `s` with the case of some ASCII letters flipped. */
  predicate CaseVariant(s: string, t: string)
  {
    |s| == |t| && forall i :: 0 <= i < |s| ==> SameLetterIgnoringCase(s[i], t[i])
  }

  /** Lowering is insensitive to the case a string was written in. */
  lemma LowerOfCaseVariant(s: string, t: string)
    requires CaseVariant(s, t)
    ensures Lower(s) == Lower(t)
  {
    forall i | 0 <= i < |s|
      ensures Lower(s)[i] == Lower(t)[i]
    {
      assert SameLetterIgnoringCase(s[i], t[i]);
    }
  }

  /** Upper-casing a string with no upper-case letters and lowering it again gives it back. */
  lemma LowerOfUpper(s: string)
    requires HasNoUpper(s)
    ensures Lower(Upper(s)) == s
  {
    forall i | 0 <= i < |s|
      ensures Lower(Upper(s))[i] == s[i]
    {
      assert !IsUpper(s[i]);
    }
  }

  /** A suffix survives lowering of both strings. */
  lemma EndsWithLower(s: string, suffix: string)
    requires EndsWith(s, suffix)
    ensures EndsWith(Lower(s), Lower(suffix))
  {
    var k := |s| - |suffix|;
    forall i | 0 <= i < |suffix|
      ensures Lower(s)[k..][i] == Lower(suffix)[i]
    {
      assert s[k..][i] == suffix[i];
    }
  }

  /** Appending a suffix makes the string end with it. */
  lemma EndsWithAppended(s: string, suffix: string)
    ensures EndsWith(s + suffix, suffix)
  {
    assert (s + suffix)[|s|..] == suffix;
  }

  /** A suffix of a suffix is a suffix. */
  lemma EndsWithTransitive(s: string, t: string, u: string)
    requires EndsWith(s, t) && EndsWith(t, u)
    ensures EndsWith(s, u)
  {
    assert s[|s| - |u|..] == s[|s| - |t|..][|t| - |u|..];
  }
}

=== FILE: discovery.dfy ===
/**
 Which file names count as images, and how the raw glob hits of
 `transform` become the ordered list that sampling starts from
 (src/preprocess_data.py lines 29-30 and 53-62). The glob calls themselves
 touch the file system and are not modelled: their hits arrive as a
 sequence of paths, in whatever order and with whatever repetitions the
 ten patterns produced them.
 */
module Discovery {
  import opened AsciiText
  import opened Ordering

  /** The allow-list `check_img` tests against. */
  const CheckImgExtensions: seq<string> :=
    [".png", ".jpg", ".jpeg", ".tif", ".tiff", ".bmp", ".gif", ".webp"]

  /** The extensions `transform` globs for, each also in upper case. */
  const GlobExtensions: seq<string> := [".jpg", ".jpeg", ".png", ".webp", ".bmp"]

  /** `s.endswith(tuple(exts))` */
  function EndsWithAny(s: string, exts: seq<string>): (r: bool)
    ensures r <==> exists e :: e in exts && EndsWith(s, e)
  {
    if |exts| == 0 then false
    else EndsWith(s, exts[0]) || EndsWithAny(s, exts[1..])
  }

  /** `check_img(filename)`: the lower-cased name ends with an allowed extension. */
  function CheckImg(filename: string): (r: bool)
    ensures r <==> exists e :: e in CheckImgExtensions && EndsWithIgnoringCase(filename, e)
  {
    EndsWithAny(Lower(filename), CheckImgExtensions)
  }

  /** `check_img` gives the same answer for every ASCII case variant of a name. */
  lemma CheckImgIgnoresCase(f: string, g: string)
    requires CaseVariant(f, g)
    ensures CheckImg(f) == CheckImg(g)
  {
    LowerOfCaseVariant(f, g);
  }

  /**
   The file name ends with the extension of one of the ten glob patterns
   `*.jpg`, `*.JPG`, `*.jpeg`, ..., `*.BMP`: on POSIX, where glob matching
   is case-sensitive, exactly the lower-case or the upper-case spelling.
   */
  predicate MatchesGlobExtension(name: string)
  {
    exists e :: e in GlobExtensions && (EndsWith(name, e) || EndsWith(name, Upper(e)))
  }

  lemma GlobExtensionsAreAllowed(e: string)
    requires e in GlobExtensions
    ensures e in CheckImgExtensions && HasNoUpper(e)
  {
  }

  /** Every file the glob patterns can find passes `check_img`. */
  lemma GlobHitPassesCheckImg(name: string)
    requires MatchesGlobExtension(name)
    ensures CheckImg(name)
  {
    var e :| e in GlobExtensions && (EndsWith(name, e) || EndsWith(name, Upper(e)));
    GlobExtensionsAreAllowed(e);
    LowerOfUpper(e);
    if EndsWith(name, e) {
      EndsWithLower(name, e);
    } else {
      EndsWithLower(name, Upper(e));
    }
    assert Lower(e) == e;
  }

  /**
   The converse fails: `check_img` accepts `.gif`/`.tif` names that no glob
   pattern of `transform` finds, and on POSIX also mixed-case names such as
   `a.JpG`.
   */
  lemma CheckImgWiderThanGlob()
    ensures CheckImg("a.gif") && !MatchesGlobExtension("a.gif")
  {
    assert EndsWith(Lower("a.gif"), ".gif") by {
      assert Lower("a.gif") == "a.gif";
    }
    assert ".gif" in CheckImgExtensions;
    forall e | e in GlobExtensions
      ensures !EndsWith("a.gif", e) && !EndsWith("a.gif", Upper(e))
    {
      var u := Upper(e);
      assert |u| == |e|;
      assert u[|u| - 1] == UpperChar(e[|e| - 1]);
    }
  }

  /** Inserts `x` into a strictly sorted list, keeping it strictly sorted. */
  function Insert(x: string, s: seq<string>): (r: seq<string>)
    requires StrictlySorted(s)
    ensures StrictlySorted(r)
    ensures forall y :: y in r <==> y == x || y in s
    ensures |r| <= |s| + 1
  {
    if |s| == 0 then [x]
    else if x == s[0] then s
    else if Less(x, s[0]) then
      assert forall j :: 0 < j < |s| ==> Less(x, s[j]) by {
        forall j | 0 < j < |s| ensures Less(x, s[j]) {
          LessTransitive(x, s[0], s[j]);
        }
      }
      [x] + s
    else
      LessTotal(x, s[0]);
      var rest := Insert(x, s[1..]);
      assert forall y :: y in rest ==> Less(s[0], y);
      [s[0]] + rest
  }

  /** `sorted(list(set(hits)))` */
  function SortedUnique(hits: seq<string>): (r: seq<string>)
    ensures StrictlySorted(r)
    ensures forall y :: y in r <==> y in hits
    ensures |r| <= |hits|
  {
    if |hits| == 0 then []
    else Insert(hits[0], SortedUnique(hits[1..]))
  }

  /**
   The discovered list depends only on which paths the globs found, not on
   the order or the number of times they were found.
   */
  lemma DiscoveryIgnoresHitOrder(hits1: seq<string>, hits2: seq<string>)
    requires forall y :: y in hits1 <==> y in hits2
    ensures SortedUnique(hits1) == SortedUnique(hits2)
  {
    StrictlySortedUnique(SortedUnique(hits1), SortedUnique(hits2));
  }

  /** A list that is already strictly sorted is discovered as it is. */
  lemma DiscoveryOfSortedList(hits: seq<string>)
    requires StrictlySorted(hits)
    ensures SortedUnique(hits) == hits
  {
    StrictlySortedUnique(SortedUnique(hits), hits);
  }

  /** Discovery is idempotent. */
  lemma DiscoveryIdempotent(hits: seq<string>)
    ensures SortedUnique(SortedUnique(hits)) == SortedUnique(hits)
  {
    DiscoveryOfSortedList(SortedUnique(hits));
  }
}

=== FILE: geometry.dfy ===
/**
 The integer decisions `process_single_image` makes for one decoded image
 (src/preprocess_data.py lines 14-18 and 90-115): whether to crop, the
 crop square, the resampling filter and the JPEG quality. The pixels and
 the Pillow calls are not modelled. Each `randint(a, b)` is a value the
 caller supplies, constrained to `a <= v <= b`.
 */
module Geometry {
  import opened IntMath

  const OutputSize: nat := 224
  const CropSizeMin: nat := 160
  const CropSizeMax: nat := 2048
  const CropRatioNum: nat := 5
  const CropRatioDen: nat := 8
  const QualityLow: nat := 65
  const QualityHigh: nat := 100
  /** The JPEG quality of the too-small branch. */
  const DirectQuality: nat := 90

  /** `cropmax = min(min(width, height), CROPSIZE_MAX)` */
  function CropMax(width: nat, height: nat): (r: nat)
    ensures r <= width && r <= height && r <= CropSizeMax
    ensures r == width || r == height || r == CropSizeMax
  {
    Min(Min(width, height), CropSizeMax)
  }

  /** The image is too small to crop: `cropmax < CROPSIZE_MIN`. */
  predicate TooSmall(width: nat, height: nat)
  {
    CropMax(width, height) < CropSizeMin
  }

  /**
   `cropmin = max(cropmax * 5 // 8, CROPSIZE_MIN)`; `//` agrees with
   Dafny's `/` here because both operands are non-negative.
   */
  function CropMin(cropmax: nat): (r: nat)
    requires cropmax >= CropSizeMin
    ensures CropSizeMin <= r <= cropmax
    ensures CropRatioDen * r > CropRatioNum * cropmax - CropRatioDen
    ensures r == CropSizeMin || CropRatioDen * r <= CropRatioNum * cropmax
  {
    Max(cropmax * CropRatioNum / CropRatioDen, CropSizeMin)
  }

  /** The four random draws of the crop branch, in the order they are made. */
  datatype Draws = Draws(cropsize: int, x1: int, y1: int, qf: int)

  /** The two resampling filters: LANCZOS (high) and BICUBIC (low). */
  datatype Resample = High | Low

  /** What happens to one decoded image. */
  datatype Plan =
    | Direct   // resized whole with the high filter and saved at quality 90
    | Crop(cropsize: nat, x1: nat, y1: nat, resample: Resample, qf: nat)

  /**
   Every draw the crop branch makes lies in its `randint` range; in the
   too-small branch nothing is drawn and nothing is required.
   */
  predicate DrawsInRange(width: nat, height: nat, d: Draws)
  {
    !TooSmall(width, height) ==>
      && CropMin(CropMax(width, height)) <= d.cropsize <= CropMax(width, height)
      && 0 <= d.x1 <= width - d.cropsize
      && 0 <= d.y1 <= height - d.cropsize
      && QualityLow <= d.qf <= QualityHigh
  }

  /** The crop square lies inside the image. */
  predicate BoxInside(width: nat, height: nat, cropsize: nat, x1: nat, y1: nat)
  {
    x1 + cropsize <= width && y1 + cropsize <= height
  }

  /** The plan of `process_single_image` for an image of the given size. */
  function PlanImage(width: nat, height: nat, d: Draws): (p: Plan)
    requires DrawsInRange(width, height, d)
    ensures p.Direct? <==> Min(width, height) < CropSizeMin
    ensures p.Crop? ==> CropSizeMin <= p.cropsize <= CropMax(width, height)
    ensures p.Crop? ==> BoxInside(width, height, p.cropsize, p.x1, p.y1)
    ensures p.Crop? ==> QualityLow <= p.qf <= QualityHigh
    ensures p.Crop? ==> (p.resample == High <==> p.cropsize > OutputSize)
    ensures p.Crop? ==> p.cropsize == d.cropsize && p.x1 == d.x1 && p.y1 == d.y1 && p.qf == d.qf
  {
    if TooSmall(width, height) then Direct
    else
      var interp := if d.cropsize > OutputSize then High else Low;
      Crop(d.cropsize, d.x1, d.y1, interp, d.qf)
  }

  /**
   Every `randint` range of the crop branch is non-empty, whatever was drawn
   before it: `cropmin <= cropmax`, and for every crop size in its range the
   origins range over `[0, width - cropsize]` and `[0, height - cropsize]`.
   The quality range `QF_RANGE = (65, 100)` is a non-empty constant range.
   */
  lemma DrawRangesNonEmpty(width: nat, height: nat, cropsize: int)
    requires !TooSmall(width, height)
    requires CropMin(CropMax(width, height)) <= cropsize <= CropMax(width, height)
    ensures CropSizeMin <= CropMin(CropMax(width, height)) <= CropMax(width, height) <= CropSizeMax
    ensures 0 <= width - cropsize && 0 <= height - cropsize
  {
  }

  /** Some draws always fit: the range preconditions never rule an image out. */
  lemma SomeDrawsFit(width: nat, height: nat)
    ensures exists d :: DrawsInRange(width, height, d)
  {
    if TooSmall(width, height) {
      assert DrawsInRange(width, height, Draws(0, 0, 0, 0));
    } else {
      var cropmax := CropMax(width, height);
      assert DrawsInRange(width, height, Draws(cropmax, 0, 0, QualityLow));
    }
  }

  /** In the too-small branch the draws make no difference to the outcome. */
  lemma DirectIgnoresDraws(width: nat, height: nat, d1: Draws, d2: Draws)
    requires Min(width, height) < CropSizeMin
    requires DrawsInRange(width, height, d1) && DrawsInRange(width, height, d2)
    ensures PlanImage(width, height, d1) == PlanImage(width, height, d2) == Direct
  {
  }

  /** The filter the final resize uses: high for the too-small branch and for downsampling. */
  function ResampleOf(p: Plan): (r: Resample)
    ensures p.Direct? ==> r == High
    ensures p.Crop? ==> r == p.resample
  {
    match p
    case Direct => High
    case Crop(_, _, _, resample, _) => resample
  }

  /**
   The final resize uses the high filter exactly for images too small to
   crop and for crops larger than the output, which it downsamples.
   */
  lemma ResampleChoice(width: nat, height: nat, d: Draws)
    requires DrawsInRange(width, height, d)
    ensures ResampleOf(PlanImage(width, height, d)) == High <==> TooSmall(width, height) || d.cropsize > OutputSize
  {
  }

  /** The `cropsize, x1, y1, qf` columns recorded for a plan. */
  datatype CropFields = CropFields(cropsize: nat, x1: nat, y1: nat, qf: nat)

  /**
   The `cropsize, x1, y1, qf` an image's row records (lines 96 and 115):
   0/0/0/90 exactly for images too small to crop, and otherwise the values
   drawn, whose crop square lies inside the image and whose quality is in
   `[65, 100]`.
   */
  function Recorded(width: nat, height: nat, d: Draws): (f: CropFields)
    requires DrawsInRange(width, height, d)
    ensures TooSmall(width, height) ==> f == CropFields(0, 0, 0, DirectQuality)
    ensures !TooSmall(width, height) ==> f == CropFields(d.cropsize, d.x1, d.y1, d.qf)
    ensures f.cropsize == 0 <==> Min(width, height) < CropSizeMin
    ensures BoxInside(width, height, f.cropsize, f.x1, f.y1)
    ensures QualityLow <= f.qf <= QualityHigh
  {
    match PlanImage(width, height, d)
    case Direct => CropFields(0, 0, 0, DirectQuality)
    case Crop(cropsize, x1, y1, _, qf) => CropFields(cropsize, x1, y1, qf)
  }
}

=== FILE: int_math.dfy ===
/** Python's built-in `min` and `max` on two integers. */
module IntMath {

  function Min(a: int, b: int): (r: int)
    ensures r <= a && r <= b
    ensures r == a || r == b
  {
    if a <= b then a else b
  }

  function Max(a: int, b: int): (r: int)
    ensures r >= a && r >= b
    ensures r == a || r == b
  {
    if a >= b then a else b
  }
}

=== FILE: naming.dfy ===
/**
 The output file name of `process_single_image`
 (src/preprocess_data.py lines 77-81): `img_`, the selection index
 formatted as `{index:03d}`, `_`, the source's basename, and a `.jpg`
 suffix unless the name already ends in one (ignoring case).
 */
module Naming {
  import opened AsciiText
  import opened IntMath

  predicate IsDigit(c: char)
  {
    '0' <= c <= '9'
  }

  predicate AllDigits(s: string)
  {
    forall i :: 0 <= i < |s| ==> IsDigit(s[i])
  }

  function DigitChar(d: nat): (c: char)
    requires d < 10
    ensures IsDigit(c) && c as int - '0' as int == d
  {
    ('0' as int + d) as char
  }

  /** The value of a string of decimal digits, most significant first. */
  function DigitsValue(s: string): nat
    requires AllDigits(s)
  {
    if |s| == 0 then 0
    else DigitsValue(s[..|s| - 1]) * 10 + (s[|s| - 1] as int - '0' as int)
  }

  /** `str(n)` for a non-negative `n`: its shortest decimal spelling. */
  function Decimal(n: nat): (r: string)
    ensures |r| >= 1 && AllDigits(r)
    ensures |r| > 1 ==> r[0] != '0'
    ensures n < 10 <==> |r| == 1
    ensures n < 100 <==> |r| <= 2
    ensures n < 1000 <==> |r| <= 3
  {
    if n < 10 then [DigitChar(n)]
    else Decimal(n / 10) + [DigitChar(n % 10)]
  }

  /** Reading the decimal spelling of `n` gives `n` back. */
  lemma {:induction false} DecimalRoundTrip(n: nat)
    ensures DigitsValue(Decimal(n)) == n
  {
    if n >= 10 {
      var s := Decimal(n);
      assert s[..|s| - 1] == Decimal(n / 10);
      DecimalRoundTrip(n / 10);
    }
  }

  function Zeros(k: nat): (r: string)
    ensures |r| == k && forall i :: 0 <= i < k ==> r[i] == '0'
  {
    seq(k, i => '0')
  }

  /** Leading zeros do not change the value of a digit string. */
  lemma {:induction false} LeadingZerosKeepValue(k: nat, s: string)
    requires AllDigits(s)
    ensures AllDigits(Zeros(k) + s)
    ensures DigitsValue(Zeros(k) + s) == DigitsValue(s)
    decreases |s|
  {
    var z := Zeros(k) + s;
    if |s| == 0 {
      assert z == Zeros(k);
      LeadingZerosOnly(k);
    } else {
      assert z[..|z| - 1] == Zeros(k) + s[..|s| - 1];
      LeadingZerosKeepValue(k, s[..|s| - 1]);
    }
  }

  lemma {:induction false} LeadingZerosOnly(k: nat)
    ensures DigitsValue(Zeros(k)) == 0
  {
    if k > 0 {
      assert Zeros(k)[..k - 1] == Zeros(k - 1);
      LeadingZerosOnly(k - 1);
    }
  }

  /** `f"{n:0{width}d}"`: `n` in decimal, zero-filled on the left to at least `width` characters. */
  function ZeroPad(n: nat, width: nat): (r: string)
    ensures |r| == Max(width, |Decimal(n)|)
    ensures AllDigits(r) && DigitsValue(r) == n
  {
    var digits := Decimal(n);
    DecimalRoundTrip(n);
    var pad := if |digits| < width then width - |digits| else 0;
    LeadingZerosKeepValue(pad, digits);
    Zeros(pad) + digits
  }

  /** `f"{index:03d}"` */
  function Pad3(index: nat): (r: string)
    ensures |r| >= 3 && AllDigits(r) && DigitsValue(r) == index
    ensures |r| == Max(3, |Decimal(index)|)
    ensures index < 1000 <==> |r| == 3
  {
    ZeroPad(index, 3)
  }

  /** The name before the `.jpg` check: `f"img_{index:03d}_{base_name}"`. */
  function Stem(index: nat, baseName: string): (r: string)
    ensures |r| == 5 + |Pad3(index)| + |baseName|
    ensures r[..4] == "img_" && r[4..4 + |Pad3(index)|] == Pad3(index)
    ensures r[4 + |Pad3(index)|] == '_' && r[5 + |Pad3(index)|..] == baseName
    ensures LeadingDigitCount(r[4..]) == |Pad3(index)|
    ensures AllDigits(r[4..4 + |Pad3(index)|]) && DigitsValue(r[4..4 + |Pad3(index)|]) == index
  {
    var r := "img_" + Pad3(index) + "_" + baseName;
    assert r[4..] == Pad3(index) + "_" + baseName;
    DigitRunBeforeUnderscore(Pad3(index), baseName, r[4..]);
    r
  }

  lemma AppendedJpgEndsWithJpg(s: string)
    ensures EndsWithIgnoringCase(s + ".jpg", ".jpg")
  {
    var t := s + ".jpg";
    var l := Lower(t);
    assert l[|t| - 4] == '.' && l[|t| - 3] == 'j' && l[|t| - 2] == 'p' && l[|t| - 1] == 'g';
    assert l[|t| - 4..] == ".jpg";
  }

  /** Lines 79-81: the file name the processed image is saved under. */
  function OutputFilename(index: nat, baseName: string): (r: string)
    ensures Stem(index, baseName) <= r
    ensures EndsWithIgnoringCase(r, ".jpg")
    ensures r == Stem(index, baseName) <==> EndsWithIgnoringCase(Stem(index, baseName), ".jpg")
    ensures r != Stem(index, baseName) ==> r == Stem(index, baseName) + ".jpg"
  {
    var stem := Stem(index, baseName);
    if EndsWithIgnoringCase(stem, ".jpg") then stem
    else
      AppendedJpgEndsWithJpg(stem);
      stem + ".jpg"
  }

  /** The file name has no `/` when the basename has none, so it names a file directly inside the output directory. */
  lemma OutputFilenameHasNoSeparator(index: nat, baseName: string)
    requires '/' !in baseName
    ensures '/' !in OutputFilename(index, baseName)
  {
    var p := Pad3(index);
    assert '/' !in p by {
      forall k | 0 <= k < |p| ensures p[k] != '/' {
        assert IsDigit(p[k]);
      }
    }
    var stem := Stem(index, baseName);
    assert stem == "img_" + p + "_" + baseName;
    assert '/' !in stem;
    assert '/' !in stem + ".jpg";
  }

  /** The padded index of different indices differ. */
  lemma Pad3Injective(i: nat, j: nat)
    requires Pad3(i) == Pad3(j)
    ensures i == j
  {
  }

  /** The length of the run of digits `t` starts with. */
  function LeadingDigitCount(t: string): (n: nat)
    ensures n <= |t|
  {
    if |t| == 0 || !IsDigit(t[0]) then 0 else 1 + LeadingDigitCount(t[1..])
  }

  /** A digit run followed by `_` at the start of a string is that string's whole leading run. */
  lemma {:induction false} DigitRunBeforeUnderscore(p: string, x: string, t: string)
    requires AllDigits(p)
    requires p + "_" + x <= t
    ensures LeadingDigitCount(t) == |p|
    ensures t[..|p|] == p
    decreases |p|
  {
    assert t[|p|] == (p + "_" + x)[|p|] == '_';
    if |p| > 0 {
      assert p[1..] + "_" + x <= t[1..];
      DigitRunBeforeUnderscore(p[1..], x, t[1..]);
    }
  }

  /**
   Distinct indices give distinct file names, whatever the basenames: the
   padded index is the run of digits between `img_` and the next `_`, so
   the file name determines the index.
   */
  lemma OutputFilenameInjective(i: nat, b1: string, j: nat, b2: string)
    requires i != j
    ensures OutputFilename(i, b1) != OutputFilename(j, b2)
  {
    var r := OutputFilename(i, b1);
    if r == OutputFilename(j, b2) {
      StemAfterPrefix(i, b1, r);
      StemAfterPrefix(j, b2, r);
      DigitRunBeforeUnderscore(Pad3(i), b1, r[4..]);
      DigitRunBeforeUnderscore(Pad3(j), b2, r[4..]);
      Pad3Injective(i, j);
    }
  }

  /** Past `img_`, a name that starts with a stem starts with the padded index and `_`. */
  lemma StemAfterPrefix(index: nat, baseName: string, r: string)
    requires Stem(index, baseName) <= r
    ensures |r| >= 4 && Pad3(index) + "_" + baseName <= r[4..]
  {
    var tail := Pad3(index) + "_" + baseName;
    assert Stem(index, baseName) == "img_" + tail;
    assert r[4..][..|tail|] == tail;
  }
}

=== FILE: ordering.dfy ===
/**
 The order Python's `sorted` puts strings in: lexicographic by code point,
 a proper prefix before any of its extensions. Dafny's `char` comparison is
 the code-point comparison.
 */
module Ordering {

  /** `a < b` on Python strings. */
  predicate Less(a: string, b: string)
    decreases |a|
  {
    if |a| == 0 then |b| > 0
    else |b| > 0 && (a[0] < b[0] || (a[0] == b[0] && Less(a[1..], b[1..])))
  }

  lemma {:induction false} LessIrreflexive(a: string)
    ensures !Less(a, a)
    decreases |a|
  {
    if |a| > 0 {
      LessIrreflexive(a[1..]);
    }
  }

  lemma {:induction false} LessTransitive(a: string, b: string, c: string)
    requires Less(a, b) && Less(b, c)
    ensures Less(a, c)
    decreases |a|
  {
    if |a| > 0 && a[0] == b[0] && b[0] == c[0] {
      LessTransitive(a[1..], b[1..], c[1..]);
    }
  }

  /** Any two distinct strings are ordered one way or the other. */
  lemma {:induction false} LessTotal(a: string, b: string)
    ensures a == b || Less(a, b) || Less(b, a)
    decreases |a|
  {
    if |a| > 0 && |b| > 0 && a[0] == b[0] {
      LessTotal(a[1..], b[1..]);
      if a[1..] == b[1..] {
        assert a == [a[0]] + a[1..] && b == [b[0]] + b[1..];
      }
    }
  }

  lemma LessAsymmetric(a: string, b: string)
    requires Less(a, b)
    ensures !Less(b, a)
  {
    if Less(b, a) {
      LessTransitive(a, b, a);
      LessIrreflexive(a);
    }
  }

  /** Every element strictly below every later one: sorted and free of duplicates. */
  predicate StrictlySorted(s: seq<string>)
  {
    forall i, j :: 0 <= i < j < |s| ==> Less(s[i], s[j])
  }

  predicate Distinct<T(==)>(s: seq<T>)
  {
    forall i, j :: 0 <= i < j < |s| ==> s[i] != s[j]
  }

  lemma StrictlySortedIsDistinct(s: seq<string>)
    requires StrictlySorted(s)
    ensures Distinct(s)
  {
    forall i, j | 0 <= i < j < |s|
      ensures s[i] != s[j]
    {
      LessIrreflexive(s[i]);
    }
  }

  /**
   A strictly sorted sequence is determined by its elements: two of them
   holding the same strings are the same sequence.
   */
  lemma {:induction false} StrictlySortedUnique(a: seq<string>, b: seq<string>)
    requires StrictlySorted(a) && StrictlySorted(b)
    requires forall x :: x in a <==> x in b
    ensures a == b
    decreases |a|
  {
    assert |b| > 0 ==> b[0] in b;
    if |a| > 0 {
      assert a[0] in b;
      assert b != [];
      assert b[0] in a;
      if a[0] != b[0] {
        var i :| 0 <= i < |a| && a[i] == b[0];
        var j :| 0 <= j < |b| && b[j] == a[0];
        assert i > 0 && j > 0;
        assert Less(a[0], b[0]);
        assert Less(b[0], a[0]);
        LessAsymmetric(a[0], b[0]);
        assert false;
      }
      forall x
        ensures x in a[1..] <==> x in b[1..]
      {
        if x in a[1..] {
          var i :| 1 <= i < |a| && a[i] == x;
          LessIrreflexive(a[0]);
          assert x != a[0];
          assert x in b;
        }
        if x in b[1..] {
          var j :| 1 <= j < |b| && b[j] == x;
          LessIrreflexive(b[0]);
          assert x != b[0];
          assert x in a;
        }
      }
      StrictlySortedUnique(a[1..], b[1..]);
      assert a == [a[0]] + a[1..] && b == [b[0]] + b[1..];
    }
  }
}

=== FILE: paths.dfy ===
/** POSIX `os.path.basename` and `os.path.join` on two components. */
module Paths {
  import opened AsciiText

  /** `os.path.basename(p)`: what follows the last `/`. */
  function Basename(p: string): (r: string)
    ensures '/' !in r
    ensures EndsWith(p, r)
    ensures |r| < |p| ==> p[|p| - |r| - 1] == '/'
  {
    if |p| == 0 || p[|p| - 1] == '/' then []
    else
      var r := Basename(p[..|p| - 1]) + [p[|p| - 1]];
      assert p[|p| - |r|..] == p[..|p| - 1][|p| - |r|..] + [p[|p| - 1]];
      r
  }

  /** `os.path.join(directory, name)` */
  function Join(directory: string, name: string): (r: string)
    ensures EndsWith(r, name)
    ensures |name| > 0 && name[0] == '/' ==> r == name
    ensures !(|name| > 0 && name[0] == '/') ==> directory <= r
    ensures !(|name| > 0 && name[0] == '/') ==>
      |r| == |directory| + |name| + (if |directory| == 0 || directory[|directory| - 1] == '/' then 0 else 1)
    ensures !(|name| > 0 && name[0] == '/') && |directory| > 0 && directory[|directory| - 1] != '/' ==>
      r[|directory|] == '/'
  {
    if |name| > 0 && name[0] == '/' then
      assert name[0..] == name;
      name
    else if |directory| == 0 || directory[|directory| - 1] == '/' then
      EndsWithAppended(directory, name);
      directory + name
    else
      EndsWithAppended(directory + "/", name);
      directory + "/" + name
  }

  /** The last component of a path that ends in a slash-free name is that name. */
  lemma {:induction false} BasenameAfterSeparator(prefix: string, name: string)
    requires '/' !in name
    requires |prefix| == 0 || prefix[|prefix| - 1] == '/'
    ensures Basename(prefix + name) == name
    decreases |name|
  {
    if |name| == 0 {
      assert prefix + name == prefix;
    } else {
      var p := prefix + name;
      assert p[..|p| - 1] == prefix + name[..|name| - 1];
      assert p[|p| - 1] == name[|name| - 1];
      BasenameAfterSeparator(prefix, name[..|name| - 1]);
      assert name == name[..|name| - 1] + [name[|name| - 1]];
    }
  }

  /** Joining a slash-free name onto a directory and taking the basename gives the name back. */
  lemma BasenameOfJoin(directory: string, name: string)
    requires '/' !in name
    ensures Basename(Join(directory, name)) == name
  {
    if |name| > 0 && name[0] == '/' {
    } else if |directory| == 0 || directory[|directory| - 1] == '/' {
      BasenameAfterSeparator(directory, name);
    } else {
      BasenameAfterSeparator(directory + "/", name);
      assert directory + "/" + name == (directory + "/") + name;
    }
  }
}

=== FILE: pipeline.dfy ===
/**
 `transform` end to end (src/preprocess_data.py lines 32-126), minus the
 file system, Pillow and the progress output: the raw glob hits are
 discovered, sampled, each selected image is processed, and the rows of
 the images that did not fail are kept in selection order.

 The images `transform` reads are a function from path to what Pillow
 makes of the file. The random draws are a function from selection index
 to the draws that image's processing gets. The real run shares one
 generator between threads, so which values an image gets depends on
 scheduling; every schedule hands each image draws within that image's
 own ranges, and that is all the model assumes.
 */
module Pipeline {
  import opened Wrappers
  import opened IntMath
  import opened AsciiText
  import opened Ordering
  import opened Paths
  import opened Discovery
  import opened Selection
  import opened Geometry
  import opened Naming

  /** What Pillow makes of one source file. */
  datatype ImageOutcome =
    | OpenFails   // `Image.open` or the RGB conversion raises
    | Opens(width: nat, height: nat, pillowSucceeds: bool)   // decoded; whether crop, resize and save also succeed

  /** One line of `metadata_processing.csv`, columns in file order. */
  datatype Row = Row(filename: string, dst: string, src: string, cropsize: nat, x1: nat, y1: nat, qf: nat)

  /** The draws handed to an image lie in that image's ranges. */
  predicate DrawsFit(img: ImageOutcome, d: Draws)
  {
    img.Opens? ==> DrawsInRange(img.width, img.height, d)
  }

  /**
   Lines 78-83: the path `process_single_image(index, src)` saves to. It is
   computed before anything can fail, so every worker tries to write it.
   */
  function Destination(outputDir: string, index: nat, src: string): (dst: string)
    ensures Basename(dst) == OutputFilename(index, Basename(src))
    ensures outputDir <= dst && EndsWithIgnoringCase(dst, ".jpg")
  {
    var filename := OutputFilename(index, Basename(src));
    var dst := Join(outputDir, filename);
    OutputFilenameHasNoSeparator(index, Basename(src));
    BasenameOfJoin(outputDir, filename);
    EndsWithLower(dst, filename);
    EndsWithTransitive(Lower(dst), Lower(filename), ".jpg");
    dst
  }

  /**
   `process_single_image(index, src)`: the row for a processed image, or
   `None` when any step after naming raises (the exception is printed and
   swallowed).
   */
  function ProcessSingleImage(outputDir: string, index: nat, src: string, img: ImageOutcome, d: Draws): (r: Option<Row>)
    requires DrawsFit(img, d)
    ensures r.None? <==> img.OpenFails? || !img.pillowSucceeds
    ensures r.Some? ==> r.value.src == src
    ensures r.Some? ==> r.value.filename == OutputFilename(index, Basename(src))
    ensures r.Some? ==> r.value.dst == Join(outputDir, r.value.filename) == Destination(outputDir, index, src)
    ensures r.Some? ==> outputDir <= r.value.dst && Basename(r.value.dst) == r.value.filename
    ensures r.Some? ==> EndsWithIgnoringCase(r.value.dst, ".jpg")
    ensures r.Some? ==> (r.value.cropsize == 0 <==> Min(img.width, img.height) < CropSizeMin)
    ensures r.Some? && r.value.cropsize == 0 ==> r.value.x1 == 0 && r.value.y1 == 0 && r.value.qf == DirectQuality
    ensures r.Some? && r.value.cropsize != 0 ==>
      && CropSizeMin <= r.value.cropsize <= CropMax(img.width, img.height)
      && BoxInside(img.width, img.height, r.value.cropsize, r.value.x1, r.value.y1)
      && QualityLow <= r.value.qf <= QualityHigh
    ensures r.Some? && !TooSmall(img.width, img.height) ==>
      r.value.cropsize == d.cropsize && r.value.x1 == d.x1 && r.value.y1 == d.y1 && r.value.qf == d.qf
  {
    var filename := OutputFilename(index, Basename(src));
    var dst := Destination(outputDir, index, src);
    match img
    case OpenFails => None
    case Opens(width, height, pillowSucceeds) =>
      if !pillowSucceeds then None
      else
        var f := Recorded(width, height, d);
        Some(Row(filename, dst, src, f.cropsize, f.x1, f.y1, f.qf))
  }

  /** The draws for every selected image fit it. */
  predicate AllDrawsFit(selection: seq<string>, images: string -> ImageOutcome, draws: nat -> Draws)
  {
    forall i :: 0 <= i < |selection| ==> DrawsFit(images(selection[i]), draws(i))
  }

  /**
   Line 126, `[x for x in metainfo if x is not None]`: the values of the
   results that are present, in order. `kept` lists their positions.
   */
  method DropNone<T>(results: seq<Option<T>>) returns (values: seq<T>, kept: seq<nat>)
    ensures |values| == |kept| <= |results|
    ensures forall k :: 0 <= k < |kept| ==> kept[k] < |results|
    ensures forall k, l :: 0 <= k < l < |kept| ==> kept[k] < kept[l]
    ensures forall i :: 0 <= i < |results| ==> (i in kept <==> results[i].Some?)
    ensures forall k :: 0 <= k < |kept| ==> results[kept[k]] == Some(values[k])
  {
    values, kept := [], [];
    var i := 0;
    while i < |results|
      invariant 0 <= i <= |results|
      invariant |values| == |kept| <= i
      invariant forall k :: 0 <= k < |kept| ==> kept[k] < i
      invariant forall k, l :: 0 <= k < l < |kept| ==> kept[k] < kept[l]
      invariant forall j :: 0 <= j < i ==> (j in kept <==> results[j].Some?)
      invariant forall k :: 0 <= k < |kept| ==> results[kept[k]] == Some(values[k])
    {
      if results[i].Some? {
        values, kept := values + [results[i].value], kept + [i];
      }
      i := i + 1;
    }
  }

  /** Lines 121-123: `process_single_image(index, src)` for every entry of `enumerate(list_src)`, in order. */
  function ProcessAll(outputDir: string, selection: seq<string>, images: string -> ImageOutcome, draws: nat -> Draws): (results: seq<Option<Row>>)
    requires AllDrawsFit(selection, images, draws)
    ensures |results| == |selection|
    ensures forall i :: 0 <= i < |selection| ==>
      results[i] == ProcessSingleImage(outputDir, i, selection[i], images(selection[i]), draws(i))
    ensures forall i, j :: 0 <= i < j < |selection| ==>
      Destination(outputDir, i, selection[i]) != Destination(outputDir, j, selection[j])
    ensures forall i, j :: 0 <= i < j < |results| && results[i].Some? && results[j].Some? ==>
      results[i].value.dst != results[j].value.dst
  {
    var results := seq(|selection|, i requires 0 <= i < |selection| =>
      ProcessSingleImage(outputDir, i, selection[i], images(selection[i]), draws(i)));
    WorkersHaveDistinctDestinations(outputDir, selection);
    results
  }

  /** Every worker of a run, failed or not, writes to its own path. */
  lemma WorkersHaveDistinctDestinations(outputDir: string, selection: seq<string>)
    ensures forall i, j :: 0 <= i < j < |selection| ==>
      Destination(outputDir, i, selection[i]) != Destination(outputDir, j, selection[j])
  {
    forall i, j | 0 <= i < j < |selection|
      ensures Destination(outputDir, i, selection[i]) != Destination(outputDir, j, selection[j])
    {
      DistinctIndicesDistinctDestinations(outputDir, i, selection[i], j, selection[j]);
    }
  }

  /** Two images processed under different indices never share a destination path. */
  lemma DistinctIndicesDistinctDestinations(outputDir: string, i: nat, src1: string, j: nat, src2: string)
    requires i != j
    ensures Destination(outputDir, i, src1) != Destination(outputDir, j, src2)
  {
    OutputFilenameInjective(i, Basename(src1), j, Basename(src2));
  }

  /**
   Lines 121-126: the metadata rows of a run. Failed images are dropped,
   the survivors keep selection order, each row is the one its own index
   produced, and no two rows share a file name.
   */
  method CollectMetadata(outputDir: string, selection: seq<string>, images: string -> ImageOutcome, draws: nat -> Draws)
    returns (rows: seq<Row>, kept: seq<nat>)
    requires AllDrawsFit(selection, images, draws)
    ensures |rows| == |kept| <= |selection|
    ensures forall k :: 0 <= k < |kept| ==> kept[k] < |selection|
    ensures forall k, l :: 0 <= k < l < |kept| ==> kept[k] < kept[l]
    ensures forall i :: 0 <= i < |selection| ==>
      (i in kept <==> ProcessSingleImage(outputDir, i, selection[i], images(selection[i]), draws(i)).Some?)
    ensures forall k :: 0 <= k < |kept| ==>
      ProcessSingleImage(outputDir, kept[k], selection[kept[k]], images(selection[kept[k]]), draws(kept[k])) == Some(rows[k])
    ensures forall k, l :: 0 <= k < l < |rows| ==> rows[k].filename != rows[l].filename
  {
    var results := ProcessAll(outputDir, selection, images, draws);
    rows, kept := DropNone(results);
    forall k, l | 0 <= k < l < |rows|
      ensures rows[k].filename != rows[l].filename
    {
      var a, b := kept[k], kept[l];
      assert results[a] == Some(rows[k]) && results[b] == Some(rows[l]);
      OutputFilenameInjective(a, Basename(selection[a]), b, Basename(selection[b]));
    }
  }

  /**
   `transform(input_dir, output_dir, seed, maximg)` on the given glob hits:
   the selection it processes and the metadata rows it writes.
   */
  method Transform(outputDir: string, hits: seq<string>, maximg: Option<int>, shuffled: seq<string>,
                   images: string -> ImageOutcome, draws: nat -> Draws)
    returns (selection: seq<string>, rows: seq<Row>, kept: seq<nat>)
    requires IsRearrangement(shuffled, SortedUnique(hits))
    requires AllDrawsFit(SelectImages(SortedUnique(hits), maximg, shuffled), images, draws)
    ensures selection == SelectImages(SortedUnique(hits), maximg, shuffled)
    ensures Distinct(selection)
    ensures forall x :: x in selection ==> x in hits
    ensures maximg.None? ==> selection == SortedUnique(hits)
    ensures maximg.Some? && |SortedUnique(hits)| <= maximg.value ==> selection == SortedUnique(hits)
    ensures maximg.Some? && |SortedUnique(hits)| > maximg.value ==> selection <= shuffled
    ensures maximg.Some? && maximg.value >= 0 ==> |selection| == Min(maximg.value, |SortedUnique(hits)|)
    ensures |rows| == |kept| <= |selection|
    ensures forall k :: 0 <= k < |kept| ==> kept[k] < |selection|
    ensures forall k, l :: 0 <= k < l < |kept| ==> kept[k] < kept[l]
    ensures forall i :: 0 <= i < |selection| ==>
      (i in kept <==> ProcessSingleImage(outputDir, i, selection[i], images(selection[i]), draws(i)).Some?)
    ensures forall k :: 0 <= k < |kept| ==>
      ProcessSingleImage(outputDir, kept[k], selection[kept[k]], images(selection[kept[k]]), draws(kept[k])) == Some(rows[k])
    ensures forall k :: 0 <= k < |rows| ==> rows[k].src in selection
    ensures forall k, l :: 0 <= k < l < |rows| ==> rows[k].filename != rows[l].filename
  {
    var found := SortedUnique(hits);
    StrictlySortedIsDistinct(found);
    selection := SelectImages(found, maximg, shuffled);
    SelectionDistinct(found, maximg, shuffled);
    if maximg.Some? && maximg.value >= 0 {
      SelectionSize(found, maximg.value, shuffled);
    }
    rows, kept := CollectMetadata(outputDir, selection, images, draws);
  }
}

=== FILE: selection.dfy ===
/**
 The `maximg` sample of `transform` (src/preprocess_data.py lines 64-74).
 Python's seeded `Random.shuffle` is not modelled: the caller supplies the
 shuffled list, which may be any rearrangement of the discovered one.
 */
module Selection {
  import opened Wrappers
  import opened IntMath
  import opened Ordering

  /** `s[:stop]`, with Python's treatment of a negative or too-large stop. */
  function PrefixSlice<T>(s: seq<T>, stop: int): (r: seq<T>)
    ensures r <= s
    ensures |r| == if stop >= 0 then Min(stop, |s|) else Max(0, |s| + stop)
  {
    if stop >= |s| then s
    else if stop >= 0 then s[..stop]
    else if |s| + stop >= 0 then s[..|s| + stop]
    else []
  }

  /** `shuffled` holds the same items as `s`, each as often. */
  predicate IsRearrangement<T(==)>(shuffled: seq<T>, s: seq<T>)
  {
    multiset(shuffled) == multiset(s)
  }

  /** The list of images `transform` goes on to process. */
  function SelectImages(found: seq<string>, maximg: Option<int>, shuffled: seq<string>): (r: seq<string>)
    requires IsRearrangement(shuffled, found)
    ensures maximg.None? || |found| <= maximg.value ==> r == found
    ensures maximg.Some? && |found| > maximg.value ==> r <= shuffled
    ensures forall x :: x in r ==> x in found
  {
    match maximg
    case None => found
    case Some(m) =>
      if |found| > m then
        var r := PrefixSlice(shuffled, m);
        assert forall x :: x in r ==> x in shuffled by {
          forall x | x in r ensures x in shuffled {
            var i :| 0 <= i < |r| && r[i] == x;
            assert shuffled[i] == x;
          }
        }
        assert forall x :: x in shuffled ==> x in multiset(shuffled);
        r
      else found
  }

  /** With a non-negative `maximg`, the selection has `min(maximg, total_found)` images. */
  lemma SelectionSize(found: seq<string>, m: int, shuffled: seq<string>)
    requires IsRearrangement(shuffled, found)
    requires m >= 0
    ensures |SelectImages(found, Some(m), shuffled)| == Min(m, |found|)
  {
    assert |shuffled| == |multiset(shuffled)| == |found|;
  }

  /**
   A negative `maximg` is below every count, so the list is shuffled and
   `list_src[:maximg]` drops that many images from its end.
   */
  lemma NegativeMaximgDropsFromEnd(found: seq<string>, m: int, shuffled: seq<string>)
    requires IsRearrangement(shuffled, found)
    requires m < 0
    ensures |SelectImages(found, Some(m), shuffled)| == Max(0, |found| + m)
  {
    assert |shuffled| == |multiset(shuffled)| == |found|;
  }

  /** A sequence without duplicates has every count at most one, and conversely. */
  lemma {:induction false} DistinctIffCountsAtMostOne<T>(s: seq<T>)
    ensures Distinct(s) <==> forall x :: multiset(s)[x] <= 1
    decreases |s|
  {
    if |s| > 0 {
      var t := s[1..];
      assert s == [s[0]] + t;
      assert multiset(s) == multiset{s[0]} + multiset(t);
      DistinctIffCountsAtMostOne(t);
      if Distinct(s) {
        assert Distinct(t) by {
          forall i, j | 0 <= i < j < |t| ensures t[i] != t[j] {
            assert t[i] == s[i + 1] && t[j] == s[j + 1];
          }
        }
      }
      if forall x :: multiset(s)[x] <= 1 {
        forall x ensures multiset(t)[x] <= 1 {
          assert multiset(s)[x] <= 1;
        }
        assert multiset(s)[s[0]] <= 1;
        assert s[0] !in multiset(t);
        forall i, j | 0 <= i < j < |s| ensures s[i] != s[j] {
          if i == 0 {
            assert s[j] == t[j - 1];
          } else {
            assert s[i] == t[i - 1] && s[j] == t[j - 1];
          }
        }
      }
    }
  }

  /** A rearrangement of a duplicate-free list is duplicate-free. */
  lemma RearrangementKeepsDistinct<T>(shuffled: seq<T>, s: seq<T>)
    requires IsRearrangement(shuffled, s)
    requires Distinct(s)
    ensures Distinct(shuffled)
  {
    DistinctIffCountsAtMostOne(s);
    DistinctIffCountsAtMostOne(shuffled);
  }

  /**
   Sampling a duplicate-free discovered list never picks an image twice:
   every selected path is a discovered one, and they are pairwise distinct.
   */
  lemma SelectionDistinct(found: seq<string>, maximg: Option<int>, shuffled: seq<string>)
    requires IsRearrangement(shuffled, found)
    requires Distinct(found)
    ensures Distinct(SelectImages(found, maximg, shuffled))
  {
    var r := SelectImages(found, maximg, shuffled);
    if r != found {
      RearrangementKeepsDistinct(shuffled, found);
      assert r == shuffled[..|r|];
    }
  }
}

=== FILE: wrappers.dfy ===
/** The optional value used where the preprocessing code returns or accepts `None`. */
module Wrappers {

  datatype Option<+T> = None | Some(value: T)
}
